=== FILE: README.md ===
# Notes client controller, modelled in Dafny

This project models the client-side logic of a single-page notes application
(`src/App.js`). The application lists, creates, edits, deletes and shares
short notes kept by a REST note store. What is modelled:

- the controller `NotesApp`, as an immutable `State` record holding its
  `useState` hooks (`notes`, `searchTerm`, `isCreating`, `editingNote`,
  `shareModal`, `loading`, `notification`);
- one pure transition per handler: `fetchNotes`, `showNotification`,
  `saveNote`, `deleteNote`, `copyShareLink`, and the inline handlers that
  open and close the editor and the share modal;
- the requests those handlers send, as HTTP verb, URL and body;
- the search filter `filteredNotes`;
- `NoteEditor`'s initial draft, its `handleSave`, and the disabled gate on its
  save button;
- `NoteCard`'s action buttons and "Public" badge;
- `ShareModal`'s link;
- a session layer that maps page events to handlers. Invariants are proved
  over every sequence of events.

Every network call is replaced by its outcome, passed in as
`Response<T> = Ok(data) | NotOk | Exception`. `Ok` is a response with `ok`
set. `NotOk` is any other response. `Exception` is anything thrown, including
a body that fails to parse. Once the outcome is a parameter, every handler is
a deterministic function of the state it starts in.

Modules, one per file:

| file | module | models |
|---|---|---|
| `notes.dfy` | `Notes` | the `Note`, `Draft`, `Notification` and `Response` records |
| `text.dfy` | `Text` | ASCII `toLowerCase`, `trim` and `includes` |
| `seqs.dfy` | `Seqs` | order-preserving `filter`, used by search and by delete |
| `search.dfy` | `Search` | `filteredNotes` |
| `urls.dfy` | `Urls` | `API_BASE_URL`, the note endpoints, the share link, `Request` |
| `editor.dfy` | `Editor` | `NoteEditor` draft initialisation and the save gate |
| `card.dfy` | `Card` | `NoteCard` actions and badge |
| `controller.dfy` | `Controller` | `NotesApp` state and handlers |
| `screen.dfy` | `Screen` | what `NotesApp` renders for a state |
| `session.dfy` | `Session` | page events, `Step`, `Run`, and run invariants |

A response whose `ok` flag is false is ignored by all three handlers
(src/App.js:19, 53, 71). Only a thrown exception reaches the `catch` that
shows "Failed to load notes", "Failed to save note" or "Failed to delete
note". So `NotOk` changes nothing, except that `fetchNotes` still clears
`loading`.

Assumptions:
- Lower-casing and trimming are ASCII only. `toLowerCase` maps `A`–`Z` to
  `a`–`z` (stated by `Text.LowerChar`). `trim` strips space, tab, line
  feed, vertical tab, form feed and carriage return.
- Note ids are strings: the text the id becomes inside a template literal.
  Equality of ids (`!==`) is equality of those strings.
- The page origin (`window.location.origin`) is a parameter. The clipboard
  write is returned as the text written.
- The `modal-overlay` element of an open editor or share modal
  (src/App.js:265, 329) covers the page, so while a modal is open the card
  buttons and the "New Note" buttons cannot be clicked. The stylesheet that
  sizes the overlay is not part of this model.

## Model

| member | source | states |
|---|---|---|
| Text.LowerChar | src/App.js:93-94 | `toLowerCase` on one character: a capital `A`–`Z` becomes the small letter at the same alphabet position, and every other character is kept |
| Text.Lower | src/App.js:93-94 | `toLowerCase` keeps the length and maps each capital to its small letter and every other character to itself |
| Text.ContainsIffOccurs | src/App.js:93-94 | `includes` as a scan holds exactly when the term occurs at some index of the string |
| Text.Trim | src/App.js:259 | `trim` returns a string with no whitespace at either end, empty exactly when the title is all whitespace |
| Text.TrimCutsOnlyWhitespace | src/App.js:259 | the result of `trim` is a slice of the title, and everything cut away is whitespace |
| Seqs.Filter | src/App.js:92-95 | `filter` keeps an order-preserving subsequence that holds only accepted elements |
| Seqs.FilterSubMultiset | src/App.js:92-95 | `filter` never adds an element, nor an extra copy of one |
| Seqs.FilterKeepsAccepted | src/App.js:92-95 | an accepted value is kept as many times as it occurs |
| Seqs.FilterLoop | src/App.js:92-95 | a single pass that appends each accepted element computes the same result as `filter` |
| Search.Visible | src/App.js:92-95 | the search result is an order-preserving selection of the notes that holds only matching notes |
| Search.VisibleKeepsEveryMatch | src/App.js:92-95 | the search shows nothing that is not stored, and shows every matching note with all its copies |
| Search.MatchesIffOccurs | src/App.js:93-94 | a note matches exactly when the lowercased term occurs in its lowercased title or its lowercased content |
| Search.EmptyTermShowsAll | src/App.js:92-95 | an empty search term shows every note, in stored order |
| Search.VisibleIsLongestMatchingSelection | src/App.js:92-95 | the search result is the unique longest order-preserving selection of matching notes |
| Search.SearchIgnoresCase | src/App.js:92-95 | two terms that are equal after lowercasing select the same notes |
| Search.SearchIdempotent | src/App.js:92-95 | searching the search result again with the same term changes nothing |
| Urls.NoteUrl | src/App.js:40 | a note's endpoint extends the collection endpoint plus `/` and is never the collection endpoint itself |
| Urls.ShareUrl | src/App.js:82 | a share link starts with `{origin}/share/` |
| Urls.NoteUrlRoundTrip | src/App.js:40 | the id read back from a note endpoint is the id it was built from, and only that id's endpoint yields it |
| Urls.ShareUrlRoundTrip | src/App.js:326 | the id read back from a share link is the id it was built from, and only that id's link yields it |
| Urls.ShareUrlInjective | src/App.js:82 | on one origin, distinct notes have distinct share links |
| Editor.InitialDraft | src/App.js:254-256 | the editor starts from the note's title, content and visibility when editing, and from a blank private draft when creating |
| Editor.HandleSave | src/App.js:258-262 | `handleSave` emits the draft unchanged, with the title untrimmed, exactly when the title has a non-whitespace character, and agrees with the disabled state of the button |
| Editor.SaveDisabledIffBlankTitle | src/App.js:311-313 | the save button is disabled exactly when the title is all whitespace, whatever the content and visibility |
| Card.CardOf | src/App.js:202-250 | a card shows the note's title and content, and the "Public" badge exactly for public notes |
| Card.CardActions | src/App.js:208-236 | the share button appears exactly for public notes; edit and delete always appear, last and in that order; no button appears twice |
| Controller.FetchRequest | src/App.js:18 | the load is a GET with no body to exactly `${API_BASE_URL}/notes`, which names no note |
| Controller.SaveTargetsListOnlyWhenCreating | src/App.js:18-43 | a save targets the endpoint the list is loaded from exactly when it creates a note; an edit never targets it |
| Controller.Init | src/App.js:7-13 | the page starts with no notes, an empty search, no editor, no share modal, no notification, and loading |
| Controller.ShowNotification | src/App.js:31-34 | `showNotification` replaces the current notification and changes nothing else |
| Controller.FetchNotes | src/App.js:16-28 | `Ok` replaces the notes wholesale; `NotOk` changes neither notes nor notification; `Exception` keeps the notes and shows "Failed to load notes" as an error; loading ends in every case; nothing else changes |
| Controller.SaveRequest | src/App.js:37-51 | when editing, the save is a PUT to the edited note's endpoint; otherwise it is a POST to the collection; the body is the draft exactly as given |
| Controller.SaveNote | src/App.js:53-61 | after an ok save and its reload, the editor is closed, loading is over, the notes are the reload's data if it succeeded, and "Note updated!" or "Note created!" overwrites any reload error; `NotOk` changes nothing; `Exception` only shows "Failed to save note" |
| Controller.DeleteRequest | src/App.js:67-69 | delete is a DELETE with no body to the endpoint of the given id |
| Controller.RemoveId | src/App.js:72 | the remaining notes are an order-preserving selection of the old notes, and none has the id |
| Controller.RemoveKeepsOthers | src/App.js:72 | removal adds no note, and keeps every note with another id with all its copies |
| Controller.RemoveAbsentId | src/App.js:72 | removing an id that no note has leaves the notes unchanged |
| Controller.RemovePresentId | src/App.js:72 | with unique ids, removing an id that is present drops exactly one note |
| Controller.RemoveKeepsUniqueIds | src/App.js:72 | removing by id keeps ids unique |
| Controller.SearchAfterRemove | src/App.js:72 | searching after a delete gives the same result as deleting from the search result |
| Controller.DeleteNote | src/App.js:65-78 | `Ok` drops every note with the id, keeps the others in order with all their copies, and shows "Note deleted!"; `NotOk` changes nothing; `Exception` keeps the notes and shows "Failed to delete note" as an error |
| Controller.CopyShareLink | src/App.js:81-85 | copying writes a link from which the note's id reads back, shows "Share link copied!" as a success, and changes nothing else |
| Controller.ShareModalUrl | src/App.js:326 | the share modal's link reads back to the id of the note it shows |
| Controller.CopyWritesDisplayedLink | src/App.js:366 | the share modal's copy button writes exactly the link the modal displays |
| Controller.SetSearchTerm | src/App.js:116 | typing in the search box sets the term and nothing else |
| Controller.OpenCreate | src/App.js:122 | "New Note" shows the editor, keeps any edit target, and changes nothing else |
| Controller.OpenEdit | src/App.js:144 | a card's edit button shows the editor on that note and changes nothing else |
| Controller.CloseEditor | src/App.js:174-177 | closing the editor hides it and changes nothing else |
| Controller.OpenShare | src/App.js:146 | a card's share button opens the share modal on that note and changes nothing else |
| Controller.CloseShare | src/App.js:185 | closing the share modal clears it and changes nothing else |
| Screen.Render | src/App.js:134-196 | the spinner shows exactly while loading; after loading there is one card per visible note, in order; the empty state shows exactly when nothing is visible; the editor is mounted exactly when it is open, with the initial draft of the note it edits, or a blank one; the share modal shows the link of its note |
| Screen.ReopenedEditorStartsFresh | src/App.js:170-177 | an editor opened on a note shows that note's fields, and one opened for a new note while no note is being edited is blank |
| Screen.EmptySearchShowsEveryCard | src/App.js:140-148 | with an empty search and loading over, every stored note has its card, in stored order |
| Session.PressFacts | src/App.js:208-236 | a card press (`Session.Press`: a card's share, edit or delete button, wired at src/App.js:141-147) never adds a note and never restarts loading, and it opens the share modal only on a public note |
| Session.SaveClick | src/App.js:258-262 | the editor's save button, through its gate and `saveNote`, leaves the notes as they were or replaces them with the reload's data after an ok save; once loading is over it stays over; the share modal is untouched |
| Session.CopyClick | src/App.js:366 | the share modal's copy button changes only the notification |
| Session.PressBeneathModal | src/App.js:265 | while a modal is open, a card press changes nothing |
| Session.StepFacts | src/App.js:16-85 | after any event (`Session.Step`: search typing, the new-note button, a card press, the editor's save and cancel, the modal's copy and close, and the load's completion, wired at src/App.js:87-89, 116, 122, 141-147, 173-177, 185-186), every note, counted with its copies, was held before or sent by the store in reply to a request the event made; a blocked save click receives nothing; finished loading stays finished; a completed load ends loading |
| Session.StepSharesPublicOnly | src/App.js:208-218 | no single event opens the share modal on a private note |
| Session.RunSharesPublicOnly | src/App.js:208-218 | no sequence of events opens the share modal on a private note |
| Session.StepKeepsUniqueIds | src/App.js:16-78 | if the store only sends lists with unique ids, one event keeps ids unique |
| Session.PressKeepsUniqueIds | src/App.js:72 | a card press, a delete included, keeps ids unique |
| Session.RunKeepsUniqueIds | src/App.js:16-78 | if the store only sends lists with unique ids, ids stay unique over any sequence of events |
| Session.Received | src/App.js:16-61 | a note among all the notes the store sent during a run was sent in reply to one of its events, in the state that event met |
| Session.RunNotesComeFromStore | src/App.js:16-78 | every note held after a sequence of events, counted with its copies, was held at the start or sent by the store in reply to a request made during it |
| Session.NotesOnlyFromStore | src/App.js:7-78 | from the initial state, every note held was sent by the store in reply to a request actually made, and never in more copies than it was sent |
| Session.RunLoadingEnds | src/App.js:25-27 | once any load has completed, loading is over for good |
| Session.RunKeepsLoaded | src/App.js:25-27 | nothing ever sets loading again once it is false |
| Session.EditorKeepsItsTarget | src/App.js:170-179 | while the editor is open, no event other than closing it or a save that goes through changes what it edits, so the draft it shows stays the one it mounted with |
| Session.BlankTitleSaveIsInert | src/App.js:258-262 | a save click with an all-whitespace title changes nothing |
| Session.UntouchedEditResubmitsNote | src/App.js:37-51 | saving an editor opened on a note without changes sends a PUT to that note's endpoint with the note's own title, content and visibility |
| Session.PublishNoteScenario | src/App.js:53-57 | making the only note public through the editor sends a PUT to its endpoint and shows "Note updated!"; the reloaded note's card has the "Public" badge and a share button |
| Session.ShareNoteScenario | src/App.js:326 | the share button of a public note's card opens the share modal, which shows `{origin}/share/{id}` |
| Session.CreatePrivateNoteScenario | src/App.js:53-57 | creating the private note "Groceries" sends a POST, closes the editor, and shows "Note created!"; the reloaded note's card has edit and delete buttons but no share button |

## Left out

- The `setTimeout` in `showNotification` (src/App.js:33) is left out, because time is not modelled. A notification in the model stays until it is replaced. The earlier timer is never cancelled, so it can clear a later notification early. The model does not show this.
- Async interleaving is left out; each handler runs atomically from the state it starts in. So overlapping requests are not modelled. Neither is `deleteNote` filtering a stale `notes` captured at render time (src/App.js:72).
- HTTP headers, JSON serialisation and status codes are left out. Only ok, not ok and thrown are distinguished.
- `toLocaleDateString` (src/App.js:243) is left out, because its output depends on locale and host. A card's `createdAt` is not rendered in the model.
- JSX markup, CSS, icons and the modal titles and button labels are presentation only, and are left out.
- `e.stopPropagation()` on card buttons is left out, because no ancestor has a click handler.
- Screen.Render: the draft is rebuilt from the edit target, while `NoteEditor` keeps the draft it was mounted with. The two agree because the overlay keeps the edit target fixed while the editor is open (Session.EditorKeepsItsTarget). Reaching a covered button by keyboard focus is not modelled.
- Typing in the search box is not blocked while a modal is open, because a focused input keeps its focus beneath the overlay.
- The editor's field `onChange` handlers (src/App.js:281, 289, 298) are left out as separate transitions. The draft given to a save click stands for whatever the user typed.
- `navigator.clipboard.writeText` is treated as an effect that always succeeds. Its result is the text written. The promise it returns is not awaited in the source.
- Text.Trim: Unicode whitespace other than the six ASCII characters is not stripped, unlike JavaScript `trim`.
- Search.Visible: lowercasing is ASCII only, unlike JavaScript `toLowerCase`.
- A note whose `title` or `content` is not a string would make the filter throw. This is not modelled, because notes have string fields here.

=== FILE: card.dfy ===
/** `NoteCard`: which actions and badges a note's card exposes. */
module Card {
  import opened Notes

  datatype Action = Share | Edit | Delete

  /** What a card shows, less styling and the locale-formatted date:
      title, content, its action buttons in order, and the "Public" badge. */
  datatype CardView = CardView(title: string, content: string, actions: seq<Action>, publicBadge: bool)

  /** The card of one note: its title and content, and the "Public" badge
      exactly for public notes. */
  function CardOf(n: Note): (c: CardView)
    ensures c.title == n.title && c.content == n.content
    ensures c.publicBadge <==> n.isPublic
  {
    var share := if n.isPublic then [Share] else [];
    CardView(n.title, n.content, share + [Edit, Delete], n.isPublic)
  }

  /** The share button appears exactly for public notes; edit and delete
      always appear, in that order, last; no button appears twice. */
  lemma CardActions(n: Note)
    ensures Share in CardOf(n).actions <==> n.isPublic
    ensures var a := CardOf(n).actions;
      |a| >= 2 && a[|a| - 2..] == [Edit, Delete]
    ensures var a := CardOf(n).actions;
      forall i, j :: 0 <= i < j < |a| ==> a[i] != a[j]
  {
    if n.isPublic {
      assert CardOf(n).actions == [Share, Edit, Delete];
    } else {
      assert CardOf(n).actions == [Edit, Delete];
    }
  }
}

=== FILE: controller.dfy ===
/** `NotesApp`: the controller's state and one transition per handler. Each
    network call is replaced by its outcome, passed in as a `Response`, so
    every handler runs atomically from the state it starts in. */
module Controller {
  import opened Notes
  import opened Seqs
  import opened Search
  import opened Urls

  /** The `useState` hooks of `NotesApp`. */
  datatype State = State(
    notes: seq<Note>,
    searchTerm: string,
    isCreating: bool,
    editingNote: Option<Note>,
    shareModal: Option<Note>,
    loading: bool,
    notification: Option<Notification>)

  const LoadFailed: string := "Failed to load notes"
  const SaveFailed: string := "Failed to save note"
  const DeleteFailed: string := "Failed to delete note"
  const NoteCreated: string := "Note created!"
  const NoteUpdated: string := "Note updated!"
  const NoteDeleted: string := "Note deleted!"
  const LinkCopied: string := "Share link copied!"

  /** The hooks' initial values: no notes, empty search, nothing open,
      loading, no notification. */
  function Init(): (r: State)
    ensures r.notes == [] && r.searchTerm == "" && r.loading
    ensures !EditorShown(r) && r.shareModal.None? && r.notification.None?
  {
    State([], "", false, None, None, true, None)
  }

  /** The editor modal is mounted. */
  predicate EditorShown(s: State) {
    s.isCreating || s.editingNote.Some?
  }

  /** `showNotification(message, kind)`: replaces the current notification
      and touches nothing else. Its auto-dismiss timer is not modelled. */
  function ShowNotification(s: State, message: string, kind: Kind): (s': State)
    ensures s'.notification == Some(Notification(message, kind))
    ensures s'.(notification := s.notification) == s
  {
    s.(notification := Some(Notification(message, kind)))
  }

  /** The request `fetchNotes` sends: a GET with no body to the collection,
      which names no note. */
  function FetchRequest(): (req: Request)
    ensures req.verb == GET && req.body.None? && req.url == NotesUrl
    ensures IdAfter(NotesUrl + "/", req.url).None?
  {
    Request(GET, NotesUrl, None)
  }

  /** `fetchNotes` once its request has ended with `res`. An ok response
      replaces the notes wholesale; a non-ok one changes no notes and shows
      no message; a thrown error keeps the notes and shows the load error.
      Loading is over in every case, and nothing else changes. */
  function FetchNotes(s: State, res: Response<seq<Note>>): (s': State)
    ensures !s'.loading
    ensures res.Ok? ==> s'.notes == res.data && s'.notification == s.notification
    ensures res.NotOk? ==> s' == s.(loading := false)
    ensures res.Exception? ==> s'.notes == s.notes && s'.notification == Some(Notification(LoadFailed, Error))
    ensures s'.(notes := s.notes, loading := s.loading, notification := s.notification) == s
  {
    var tried :=
      match res
      case Ok(data) => s.(notes := data)
      case NotOk => s
      case Exception => ShowNotification(s, LoadFailed, Error);
    tried.(loading := false)
  }

  /** The request `saveNote(draft)` sends: PUT to the edited note's endpoint
      when a note is being edited, otherwise POST to the collection; the
      body is the draft exactly as given. */
  function SaveRequest(s: State, draft: Draft): (req: Request)
    ensures req.body == Some(draft)
    ensures req.verb == PUT <==> s.editingNote.Some?
    ensures req.verb == PUT || req.verb == POST
    ensures s.editingNote.Some? ==> IdAfter(NotesUrl + "/", req.url) == Some(s.editingNote.value.id)
    ensures s.editingNote.None? ==> req.url == NotesUrl
  {
    match s.editingNote
    case Some(n) =>
      NoteUrlRoundTrip(n.id, NoteUrl(n.id));
      Request(PUT, NoteUrl(n.id), Some(draft))
    case None => Request(POST, NotesUrl, Some(draft))
  }

  /** A new note is posted to the very endpoint the list is fetched from,
      and an edit never targets it. */
  lemma SaveTargetsListOnlyWhenCreating(s: State, draft: Draft)
    ensures SaveRequest(s, draft).url == FetchRequest().url <==> s.editingNote.None?
  {
    if s.editingNote.Some? {
      assert SaveRequest(s, draft).url == NoteUrl(s.editingNote.value.id);
    }
  }

  /** `saveNote` once the save request has ended with `res` and, if it was
      ok, the reload it triggers has ended with `reload`. After an ok save
      the editor is closed and the success message, chosen by whether a note
      was being edited when the call began, replaces whatever the reload
      showed. A non-ok save changes nothing; a thrown error only shows the
      save error and leaves the editor as it was. */
  function SaveNote(s: State, res: Response<()>, reload: Response<seq<Note>>): (s': State)
    ensures res.Ok? ==>
      && !EditorShown(s')
      && !s'.loading
      && s'.notes == (if reload.Ok? then reload.data else s.notes)
      && s'.notification == Some(Notification(if s.editingNote.Some? then NoteUpdated else NoteCreated, Success))
      && s'.searchTerm == s.searchTerm && s'.shareModal == s.shareModal
    ensures res.NotOk? ==> s' == s
    ensures res.Exception? ==> s' == s.(notification := Some(Notification(SaveFailed, Error)))
  {
    match res
    case Ok(_) =>
      var reloaded := FetchNotes(s, reload);
      var closed := reloaded.(isCreating := false).(editingNote := None);
      ShowNotification(closed, if s.editingNote.Some? then NoteUpdated else NoteCreated, Success)
    case NotOk => s
    case Exception => ShowNotification(s, SaveFailed, Error)
  }

  /** The request `deleteNote(id)` sends. */
  function DeleteRequest(id: Id): (req: Request)
    ensures req.verb == DELETE && req.body.None?
    ensures IdAfter(NotesUrl + "/", req.url) == Some(id)
  {
    NoteUrlRoundTrip(id, NoteUrl(id));
    Request(DELETE, NoteUrl(id), None)
  }

  /** `notes.filter(note => note.id !== id)`: a selection of the notes, in
      order, none with that id. */
  function RemoveId(notes: seq<Note>, id: Id): (r: seq<Note>)
    ensures IsSubsequence(r, notes)
    ensures forall i :: 0 <= i < |r| ==> r[i].id != id
  {
    Filter(notes, (n: Note) => n.id != id)
  }

  /** Removal adds nothing, and keeps every note with another id, with all
      its copies. */
  lemma RemoveKeepsOthers(notes: seq<Note>, id: Id)
    ensures multiset(RemoveId(notes, id)) <= multiset(notes)
    ensures forall i :: 0 <= i < |notes| && notes[i].id != id ==>
      multiset(RemoveId(notes, id))[notes[i]] == multiset(notes)[notes[i]]
  {
    var p := (n: Note) => n.id != id;
    FilterSubMultiset(notes, p);
    forall i | 0 <= i < |notes| && notes[i].id != id
      ensures multiset(RemoveId(notes, id))[notes[i]] == multiset(notes)[notes[i]]
    {
      FilterKeepsAccepted(notes, p, notes[i]);
    }
  }

  /** Removing an id no note has changes nothing. */
  lemma RemoveAbsentId(notes: seq<Note>, id: Id)
    requires forall i :: 0 <= i < |notes| ==> notes[i].id != id
    ensures RemoveId(notes, id) == notes
  {
    FilterKeepsAll(notes, (n: Note) => n.id != id);
  }

  /** With unique ids, removing an id that is present drops exactly one note. */
  lemma {:induction false} RemovePresentId(notes: seq<Note>, id: Id, k: nat)
    requires UniqueIds(notes)
    requires k < |notes| && notes[k].id == id
    ensures |RemoveId(notes, id)| == |notes| - 1
    decreases |notes|
  {
    var rest := notes[1..];
    assert UniqueIds(rest) by {
      forall i, j | 0 <= i < j < |rest| ensures rest[i].id != rest[j].id {
        assert rest[i] == notes[i + 1] && rest[j] == notes[j + 1];
      }
    }
    if k == 0 {
      forall i | 0 <= i < |rest| ensures rest[i].id != id {
        assert rest[i] == notes[i + 1];
      }
      RemoveAbsentId(rest, id);
    } else {
      RemovePresentId(rest, id, k - 1);
    }
  }

  /** Removing by id keeps the ids unique. */
  lemma {:induction false} RemoveKeepsUniqueIds(notes: seq<Note>, id: Id)
    requires UniqueIds(notes)
    ensures UniqueIds(RemoveId(notes, id))
    decreases |notes|
  {
    if |notes| > 0 {
      var rest := notes[1..];
      assert UniqueIds(rest) by {
        forall i, j | 0 <= i < j < |rest| ensures rest[i].id != rest[j].id {
          assert rest[i] == notes[i + 1] && rest[j] == notes[j + 1];
        }
      }
      RemoveKeepsUniqueIds(rest, id);
      var tail := RemoveId(rest, id);
      if notes[0].id != id {
        assert RemoveId(notes, id) == [notes[0]] + tail;
        forall j | 0 <= j < |tail| ensures notes[0].id != tail[j].id {
          FilterSubMultiset(rest, (n: Note) => n.id != id);
          assert tail[j] in multiset(tail);
          var m :| 0 <= m < |rest| && rest[m] == tail[j];
          assert rest[m] == notes[m + 1];
        }
      } else {
        assert RemoveId(notes, id) == tail;
      }
    }
  }

  /** Deleting and then searching shows the same notes as searching and
      then deleting: the search view simply loses the deleted note. */
  lemma SearchAfterRemove(notes: seq<Note>, id: Id, term: string)
    ensures Visible(RemoveId(notes, id), term) == RemoveId(Visible(notes, term), id)
  {
    FilterCommutes(notes, (n: Note) => n.id != id, n => Matches(n, term));
  }

  /** `deleteNote(id)` once its request has ended with `res`. An ok response
      drops every note with that id, keeps the others in order and
      unchanged, and shows the success message; a non-ok one changes
      nothing; a thrown error keeps the notes and shows the delete error. */
  function DeleteNote(s: State, id: Id, res: Response<()>): (s': State)
    ensures res.Ok? ==>
      && IsSubsequence(s'.notes, s.notes)
      && (forall i :: 0 <= i < |s'.notes| ==> s'.notes[i].id != id)
      && (forall i :: 0 <= i < |s.notes| && s.notes[i].id != id ==>
            multiset(s'.notes)[s.notes[i]] == multiset(s.notes)[s.notes[i]])
      && s'.notification == Some(Notification(NoteDeleted, Success))
      && s'.(notes := s.notes, notification := s.notification) == s
    ensures res.NotOk? ==> s' == s
    ensures res.Exception? ==> s' == s.(notification := Some(Notification(DeleteFailed, Error)))
  {
    match res
    case Ok(_) =>
      RemoveKeepsOthers(s.notes, id);
      ShowNotification(s.(notes := RemoveId(s.notes, id)), NoteDeleted, Success)
    case NotOk => s
    case Exception => ShowNotification(s, DeleteFailed, Error)
  }

  /** The outcome of `copyShareLink`: the new state and the text written to
      the clipboard. */
  datatype Copied = Copied(state: State, clipboard: string)

  /** `copyShareLink(id)`: writes the note's share link, from which the id
      reads back, to the clipboard and shows the copied message. */
  function CopyShareLink(s: State, origin: string, id: Id): (c: Copied)
    ensures IdAfter(origin + "/share/", c.clipboard) == Some(id)
    ensures c.state == s.(notification := Some(Notification(LinkCopied, Success)))
  {
    ShareUrlRoundTrip(origin, id, ShareUrl(origin, id));
    Copied(ShowNotification(s, LinkCopied, Success), ShareUrl(origin, id))
  }

  /** The link `ShareModal` displays for a note. */
  function ShareModalUrl(origin: string, note: Note): (url: string)
    ensures IdAfter(origin + "/share/", url) == Some(note.id)
  {
    ShareUrlRoundTrip(origin, note.id, ShareUrl(origin, note.id));
    ShareUrl(origin, note.id)
  }

  /** The copy button of the share modal writes exactly the link the modal
      displays. */
  lemma CopyWritesDisplayedLink(s: State, origin: string)
    requires s.shareModal.Some?
    ensures CopyShareLink(s, origin, s.shareModal.value.id).clipboard == ShareModalUrl(origin, s.shareModal.value)
  {
    var note := s.shareModal.value;
    ShareUrlRoundTrip(origin, note.id, CopyShareLink(s, origin, note.id).clipboard);
  }

  /** The search input's `onChange`. */
  function SetSearchTerm(s: State, term: string): (s': State)
    ensures s'.searchTerm == term && s'.(searchTerm := s.searchTerm) == s
  {
    s.(searchTerm := term)
  }

  /** The "New Note" buttons: the editor opens, in edit mode if a note was
      already being edited. */
  function OpenCreate(s: State): (s': State)
    ensures EditorShown(s') && s'.editingNote == s.editingNote
    ensures s'.(isCreating := s.isCreating) == s
  {
    s.(isCreating := true)
  }

  /** A card's edit button: the editor opens on that note. */
  function OpenEdit(s: State, note: Note): (s': State)
    ensures EditorShown(s') && s'.editingNote == Some(note)
    ensures s'.(editingNote := s.editingNote) == s
  {
    s.(editingNote := Some(note))
  }

  /** The editor's close and cancel buttons: the editor is torn down. */
  function CloseEditor(s: State): (s': State)
    ensures !EditorShown(s')
    ensures s'.(isCreating := s.isCreating, editingNote := s.editingNote) == s
  {
    s.(isCreating := false, editingNote := None)
  }

  /** A card's share button: the share modal opens on that note. */
  function OpenShare(s: State, note: Note): (s': State)
    ensures s'.shareModal == Some(note) && s'.(shareModal := s.shareModal) == s
  {
    s.(shareModal := Some(note))
  }

  /** The share modal's close button. */
  function CloseShare(s: State): (s': State)
    ensures s'.shareModal.None? && s'.(shareModal := s.shareModal) == s
  {
    s.(shareModal := None)
  }
}

=== FILE: editor.dfy ===
/** `NoteEditor`: the draft it starts from and the gate in front of save. */
module Editor {
  import opened Notes
  import opened Text

  /** JavaScript's `value || fallback` on a string: the empty string is falsy. */
  function OrString(value: string, fallback: string): string {
    if value != "" then value else fallback
  }

  /** The draft the editor's `useState` initialisers produce: the note's own
      fields when editing, blank and private when creating. */
  function InitialDraft(note: Option<Note>): (d: Draft)
    ensures note.Some? ==> d == Draft(note.value.title, note.value.content, note.value.isPublic)
    ensures note.None? ==> d == Draft("", "", false)
  {
    match note
    case Some(n) => Draft(OrString(n.title, ""), OrString(n.content, ""), n.isPublic || false)
    case None => Draft("", "", false)
  }

  /** `disabled={!title.trim()}` on the save button. */
  predicate SaveDisabled(d: Draft) {
    Trim(d.title) == ""
  }

  /** `handleSave`: passes the draft on, untrimmed, exactly when its title
      has a character that is not whitespace; otherwise emits nothing. It
      agrees with the button's disabled state. */
  function HandleSave(d: Draft): (emitted: Option<Draft>)
    ensures emitted.Some? <==> exists i :: 0 <= i < |d.title| && !IsWhitespace(d.title[i])
    ensures emitted.Some? ==> emitted.value == d
    ensures emitted.None? <==> SaveDisabled(d)
  {
    if Trim(d.title) != "" then Some(d) else None
  }

  /** The button is disabled exactly when the title is all whitespace,
      whatever the content and the public flag. */
  lemma SaveDisabledIffBlankTitle(d: Draft, content: string, isPublic: bool)
    ensures SaveDisabled(d) <==> forall i :: 0 <= i < |d.title| ==> IsWhitespace(d.title[i])
    ensures SaveDisabled(d) == SaveDisabled(d.(content := content, isPublic := isPublic))
  {
  }
}

=== FILE: notes.dfy ===
/** The records the client holds and exchanges with the note store. */
module Notes {

  datatype Option<T> = None | Some(value: T)

  /** A note id, as the text it becomes when spliced into a URL. */
  type Id = string

  /** A note as returned by the store. `createdAt` is only ever displayed. */
  datatype Note = Note(id: Id, title: string, content: string, isPublic: bool, createdAt: string)

  /** The body the editor emits and the save request carries. */
  datatype Draft = Draft(title: string, content: string, isPublic: bool)

  datatype Kind = Success | Error

  /** What `showNotification` stores: a message and its kind. */
  datatype Notification = Notification(message: string, kind: Kind)

  /** How a `fetch` call ended: a response with `ok` set (and its parsed
      body), a response without `ok`, or a thrown exception. */
  datatype Response<T> = Ok(data: T) | NotOk | Exception

  /** No two notes in the collection share an id. */
  predicate UniqueIds(notes: seq<Note>) {
    forall i, j :: 0 <= i < j < |notes| ==> notes[i].id != notes[j].id
  }
}

=== FILE: screen.dfy ===
/** What `NotesApp` renders for a state, reduced to what is shown rather
    than how: spinner or cards, the empty-state panel, the open modals and
    the notification. */
module Screen {
  import opened Notes
  import opened Search
  import opened Card
  import opened Editor
  import opened Controller
  import opened Urls

  datatype View = View(
    spinner: bool,
    cards: seq<CardView>,
    emptyState: bool,
    editor: Option<Draft>,
    shareLink: Option<string>,
    notification: Option<Notification>)

  /** The rendered screen. While loading only the spinner shows; afterwards
      one card per visible note, in order, and the empty-state panel exactly
      when no note is visible. The editor is mounted, starting from the
      edited note's fields or a blank draft, exactly when it is open; the
      share modal shows the link of the note it was opened on. */
  function Render(s: State, origin: string): (v: View)
    ensures v.spinner == s.loading
    ensures v.emptyState <==> !s.loading && |Visible(s.notes, s.searchTerm)| == 0
    ensures s.loading ==> v.cards == []
    ensures !s.loading ==> |v.cards| == |Visible(s.notes, s.searchTerm)|
    ensures !s.loading ==> forall i :: 0 <= i < |v.cards| ==> v.cards[i] == CardOf(Visible(s.notes, s.searchTerm)[i])
    ensures v.editor.Some? <==> EditorShown(s)
    ensures v.editor.Some? ==> v.editor.value == InitialDraft(s.editingNote)
    ensures v.shareLink.Some? <==> s.shareModal.Some?
    ensures v.shareLink.Some? ==> IdAfter(origin + "/share/", v.shareLink.value) == Some(s.shareModal.value.id)
    ensures v.notification == s.notification
  {
    var shown := Visible(s.notes, s.searchTerm);
    View(
      s.loading,
      if s.loading then [] else seq(|shown|, i requires 0 <= i < |shown| => CardOf(shown[i])),
      |shown| == 0 && !s.loading,
      if EditorShown(s) then Some(InitialDraft(s.editingNote)) else None,
      if s.shareModal.Some? then Some(ShareModalUrl(origin, s.shareModal.value)) else None,
      s.notification)
  }

  /** With an empty search term and loading over, every stored note has its
      card, in the stored order. */
  lemma EmptySearchShowsEveryCard(s: State, origin: string)
    requires !s.loading && s.searchTerm == ""
    ensures |Render(s, origin).cards| == |s.notes|
    ensures forall i :: 0 <= i < |s.notes| ==> Render(s, origin).cards[i] == CardOf(s.notes[i])
  {
    EmptyTermShowsAll(s.notes);
  }

  /** An editor opened on a note shows that note's fields, whatever state
      it is opened from, and one opened for a new note while no note is
      being edited is blank. */
  lemma ReopenedEditorStartsFresh(s: State, n: Note, origin: string)
    ensures Render(OpenEdit(s, n), origin).editor == Some(Draft(n.title, n.content, n.isPublic))
    ensures s.editingNote.None? ==> Render(OpenCreate(s), origin).editor == Some(Draft("", "", false))
  {
  }
}

=== FILE: search.dfy ===
/** The search box: `filteredNotes`, the notes whose title or content
    contains the search term, ignoring case. */
module Search {
  import opened Notes
  import opened Text
  import opened Seqs

  /** The callback `filteredNotes` hands to `filter`. */
  predicate Matches(n: Note, term: string) {
    Contains(Lower(n.title), Lower(term)) || Contains(Lower(n.content), Lower(term))
  }

  /** The notes shown for `term`: an order-preserving selection of `notes`
      holding only matching notes. */
  function Visible(notes: seq<Note>, term: string): (r: seq<Note>)
    ensures IsSubsequence(r, notes)
    ensures forall i :: 0 <= i < |r| ==> Matches(r[i], term)
  {
    Filter(notes, n => Matches(n, term))
  }

  /** Nothing is shown that is not stored, and every matching note is shown
      with all its copies. */
  lemma VisibleKeepsEveryMatch(notes: seq<Note>, term: string)
    ensures multiset(Visible(notes, term)) <= multiset(notes)
    ensures forall i :: 0 <= i < |notes| && Matches(notes[i], term) ==>
      multiset(Visible(notes, term))[notes[i]] == multiset(notes)[notes[i]]
  {
    var p := n => Matches(n, term);
    FilterSubMultiset(notes, p);
    forall i | 0 <= i < |notes| && Matches(notes[i], term)
      ensures multiset(Visible(notes, term))[notes[i]] == multiset(notes)[notes[i]]
    {
      FilterKeepsAccepted(notes, p, notes[i]);
    }
  }

  /** A note matches exactly when the lowercased term occurs at some
      position of its lowercased title or of its lowercased content. */
  lemma MatchesIffOccurs(n: Note, term: string)
    ensures Matches(n, term) <==>
      (exists i :: OccursAt(Lower(n.title), Lower(term), i)) ||
      (exists i :: OccursAt(Lower(n.content), Lower(term), i))
  {
    ContainsIffOccurs(Lower(n.title), Lower(term));
    ContainsIffOccurs(Lower(n.content), Lower(term));
  }

  /** An empty search term shows every note, in the stored order. */
  lemma EmptyTermShowsAll(notes: seq<Note>)
    ensures Visible(notes, "") == notes
  {
    assert Lower("") == "";
    forall i | 0 <= i < |notes| ensures Matches(notes[i], "") {
      ContainsEmpty(Lower(notes[i].title));
    }
    FilterKeepsAll(notes, n => Matches(n, ""));
  }

  /** The visible notes are the longest order-preserving selection of
      matching notes: any other such selection is shorter, or is the same. */
  lemma VisibleIsLongestMatchingSelection(notes: seq<Note>, term: string, r: seq<Note>)
    requires IsSubsequence(r, notes)
    requires forall i :: 0 <= i < |r| ==> Matches(r[i], term)
    ensures |r| <= |Visible(notes, term)|
    ensures |r| == |Visible(notes, term)| ==> r == Visible(notes, term)
  {
    FilterIsLongestAcceptedSubsequence(r, notes, n => Matches(n, term));
  }

  /** Only the lowercased term matters: terms that differ in case select
      the same notes. */
  lemma SearchIgnoresCase(notes: seq<Note>, term: string, other: string)
    requires Lower(term) == Lower(other)
    ensures Visible(notes, term) == Visible(notes, other)
  {
    FilterExtensional(notes, n => Matches(n, term), n => Matches(n, other));
  }

  /** Searching the visible notes again with the same term changes nothing. */
  lemma SearchIdempotent(notes: seq<Note>, term: string)
    ensures Visible(Visible(notes, term), term) == Visible(notes, term)
  {
    var p := n => Matches(n, term);
    FilterKeepsAll(Filter(notes, p), p);
  }
}

=== FILE: seqs.dfy ===
/** Order-preserving selection from a sequence, the `Array.prototype.filter`
    that both the search box and `deleteNote` rely on. */
module Seqs {

  /** `a` can be obtained from `b` by dropping elements, keeping order. */
  predicate IsSubsequence<T(==)>(a: seq<T>, b: seq<T>)
    decreases |b|
  {
    |a| == 0 || (|b| > 0 && ((a[0] == b[0] && IsSubsequence(a[1..], b[1..])) || IsSubsequence(a, b[1..])))
  }

  /** The elements of `xs` that satisfy `p`, in their original order. */
  function Filter<T(==)>(xs: seq<T>, p: T -> bool): (r: seq<T>)
    ensures IsSubsequence(r, xs)
    ensures forall i :: 0 <= i < |r| ==> p(r[i])
    decreases |xs|
  {
    if |xs| == 0 then []
    else if p(xs[0]) then [xs[0]] + Filter(xs[1..], p)
    else Filter(xs[1..], p)
  }

  /** The filter never adds an element or a copy of one. */
  lemma {:induction false} FilterSubMultiset<T>(xs: seq<T>, p: T -> bool)
    ensures multiset(Filter(xs, p)) <= multiset(xs)
    decreases |xs|
  {
    if |xs| > 0 {
      FilterSubMultiset(xs[1..], p);
      assert xs == [xs[0]] + xs[1..];
    }
  }

  /** An accepted value is kept as many times as it occurs. */
  lemma {:induction false} FilterKeepsAccepted<T>(xs: seq<T>, p: T -> bool, x: T)
    requires p(x)
    ensures multiset(Filter(xs, p))[x] == multiset(xs)[x]
    decreases |xs|
  {
    if |xs| > 0 {
      FilterKeepsAccepted(xs[1..], p, x);
      assert xs == [xs[0]] + xs[1..];
      if p(xs[0]) {
        assert Filter(xs, p) == [xs[0]] + Filter(xs[1..], p);
      }
    }
  }

  /** Filtering distributes over concatenation. */
  lemma {:induction false} FilterAppend<T>(a: seq<T>, b: seq<T>, p: T -> bool)
    ensures Filter(a + b, p) == Filter(a, p) + Filter(b, p)
    decreases |a|
  {
    if |a| == 0 {
      assert a + b == b;
    } else {
      assert (a + b)[1..] == a[1..] + b;
      FilterAppend(a[1..], b, p);
    }
  }

  /** `Array.prototype.filter` as the browser runs it: one pass, appending
      each element the callback accepts. */
  method FilterLoop<T(==)>(xs: seq<T>, p: T -> bool) returns (r: seq<T>)
    ensures r == Filter(xs, p)
  {
    r := [];
    var i := 0;
    while i < |xs|
      invariant 0 <= i <= |xs|
      invariant r == Filter(xs[..i], p)
    {
      assert xs[..i + 1] == xs[..i] + [xs[i]];
      FilterAppend(xs[..i], [xs[i]], p);
      if p(xs[i]) {
        r := r + [xs[i]];
      }
      i := i + 1;
    }
    assert xs[..|xs|] == xs;
  }

  /** When every element is accepted nothing is dropped. */
  lemma {:induction false} FilterKeepsAll<T>(xs: seq<T>, p: T -> bool)
    requires forall i :: 0 <= i < |xs| ==> p(xs[i])
    ensures Filter(xs, p) == xs
    decreases |xs|
  {
    if |xs| > 0 {
      FilterKeepsAll(xs[1..], p);
      assert [xs[0]] + xs[1..] == xs;
    }
  }

  /** Filters with the same verdict on every element give the same result. */
  lemma {:induction false} FilterExtensional<T>(xs: seq<T>, p: T -> bool, q: T -> bool)
    requires forall i :: 0 <= i < |xs| ==> p(xs[i]) == q(xs[i])
    ensures Filter(xs, p) == Filter(xs, q)
    decreases |xs|
  {
    if |xs| > 0 {
      FilterExtensional(xs[1..], p, q);
    }
  }

  /** Two filters commute; in particular filtering twice by the same
      predicate is filtering once. */
  lemma {:induction false} FilterCommutes<T>(xs: seq<T>, p: T -> bool, q: T -> bool)
    ensures Filter(Filter(xs, p), q) == Filter(Filter(xs, q), p)
    decreases |xs|
  {
    if |xs| > 0 {
      FilterCommutes(xs[1..], p, q);
      var x := xs[0];
      if p(x) {
        assert Filter(xs, p) == [x] + Filter(xs[1..], p);
        FilterAppend([x], Filter(xs[1..], p), q);
      }
      if q(x) {
        assert Filter(xs, q) == [x] + Filter(xs[1..], q);
        FilterAppend([x], Filter(xs[1..], q), p);
      }
    }
  }

  /** A subsequence is never longer than the sequence. */
  lemma {:induction false} SubsequenceLength<T>(a: seq<T>, b: seq<T>)
    requires IsSubsequence(a, b)
    ensures |a| <= |b|
    ensures |a| == |b| ==> a == b
    decreases |b|
  {
    if |a| > 0 {
      if a[0] == b[0] && IsSubsequence(a[1..], b[1..]) {
        SubsequenceLength(a[1..], b[1..]);
        if |a| == |b| {
          assert a == [a[0]] + a[1..] && b == [b[0]] + b[1..];
        }
      } else {
        SubsequenceLength(a, b[1..]);
      }
    }
  }

  /** Any order-preserving selection of accepted elements is a selection
      from the filter's result. */
  lemma {:induction false} AcceptedSubsequenceOfFilter<T>(r: seq<T>, xs: seq<T>, p: T -> bool)
    requires IsSubsequence(r, xs)
    requires forall i :: 0 <= i < |r| ==> p(r[i])
    ensures IsSubsequence(r, Filter(xs, p))
    decreases |xs|
  {
    if |r| > 0 {
      var f := Filter(xs[1..], p);
      if r[0] == xs[0] && IsSubsequence(r[1..], xs[1..]) {
        AcceptedSubsequenceOfFilter(r[1..], xs[1..], p);
        assert p(xs[0]);
        assert Filter(xs, p) == [xs[0]] + f;
        assert ([xs[0]] + f)[1..] == f;
      } else {
        AcceptedSubsequenceOfFilter(r, xs[1..], p);
        if p(xs[0]) {
          assert Filter(xs, p) == [xs[0]] + f;
          assert ([xs[0]] + f)[1..] == f;
        }
      }
    }
  }

  /** The filter's result is the one longest order-preserving selection of
      accepted elements: any selection of accepted elements that is as long
      as it is equal to it. */
  lemma FilterIsLongestAcceptedSubsequence<T>(r: seq<T>, xs: seq<T>, p: T -> bool)
    requires IsSubsequence(r, xs)
    requires forall i :: 0 <= i < |r| ==> p(r[i])
    ensures |r| <= |Filter(xs, p)|
    ensures |r| == |Filter(xs, p)| ==> r == Filter(xs, p)
  {
    AcceptedSubsequenceOfFilter(r, xs, p);
    SubsequenceLength(r, Filter(xs, p));
  }
}

=== FILE: session.dfy ===
/** A user session: the events the page reacts to, each mapped to the
    handler it triggers, and the invariants every sequence of events keeps. */
module Session {
  import opened Notes
  import opened Text
  import opened Search
  import opened Card
  import opened Editor
  import opened Urls
  import opened Controller
  import Screen

  /** One thing that happens on the page, together with the outcome of any
      network call it makes. `Loaded` is the mount-time `fetchNotes`. */
  datatype Event =
    | Loaded(fetched: Response<seq<Note>>)
    | Typed(term: string)
    | NewNote
    | CardPressed(index: nat, action: Action, res: Response<()>)
    | SaveClicked(draft: Draft, res: Response<()>, reload: Response<seq<Note>>)
    | EditorClosed
    | CopyClicked(origin: string)
    | ShareClosed

  /** The save button leads to `saveNote`: the editor is open and its gate
      lets the draft through. */
  predicate SaveGoesThrough(s: State, draft: Draft) {
    EditorShown(s) && HandleSave(draft).Some?
  }

  /** The notes the note store sends in reply to an event in state `s`, if
      any. A save click sends nothing, and so receives nothing, unless it
      goes through. */
  function Payload(s: State, e: Event): seq<Note> {
    match e
    case Loaded(Ok(data)) => data
    case SaveClicked(draft, Ok(_), Ok(data)) => if SaveGoesThrough(s, draft) then data else []
    case _ => []
  }

  /** A modal is open, and its overlay covers the header and the cards. */
  predicate Covered(s: State) {
    EditorShown(s) || s.shareModal.Some?
  }

  /** A button of the `index`-th visible card. Cards are rendered only once
      loading is over, they lie beneath the overlay of an open modal, and a
      card has only the buttons `CardOf` gives it; pressing anything else
      does nothing. */
  function Press(s: State, index: nat, action: Action, res: Response<()>): State
  {
    var shown := Visible(s.notes, s.searchTerm);
    if Covered(s) || s.loading || index >= |shown| || action !in CardOf(shown[index]).actions then s
    else
      match action
      case Share => OpenShare(s, shown[index])
      case Edit => OpenEdit(s, shown[index])
      case Delete => DeleteNote(s, shown[index].id, res)
  }

  /** A press never adds a note or a copy of one, never restarts loading,
      and opens the share modal only on a public note. */
  lemma PressFacts(s: State, index: nat, action: Action, res: Response<()>)
    ensures multiset(Press(s, index, action, res).notes) <= multiset(s.notes)
    ensures Press(s, index, action, res).loading == s.loading
    ensures var t := Press(s, index, action, res);
      t.shareModal != s.shareModal ==> t.shareModal.Some? && t.shareModal.value.isPublic
  {
    var shown := Visible(s.notes, s.searchTerm);
    var t := Press(s, index, action, res);
    if Covered(s) || s.loading || index >= |shown| {
      assert t == s;
    } else {
      var n := shown[index];
      var acts := CardOf(n).actions;
      if action !in acts {
        assert t == s;
      } else if action == Delete {
        assert t == DeleteNote(s, n.id, res);
        if res.Ok? {
          assert t.notes == RemoveId(s.notes, n.id);
          RemoveKeepsOthers(s.notes, n.id);
        } else {
          assert t.notes == s.notes;
        }
        assert t.loading == s.loading && t.shareModal == s.shareModal;
      } else if action == Share {
        assert t == OpenShare(s, n);
        CardActions(n);
        assert t.notes == s.notes && t.loading == s.loading;
      } else {
        assert t == OpenEdit(s, n);
        assert t.notes == s.notes && t.loading == s.loading && t.shareModal == s.shareModal;
      }
    }
  }

  /** Beneath an open modal, no card button can be pressed. */
  lemma PressBeneathModal(s: State, index: nat, action: Action, res: Response<()>)
    requires Covered(s)
    ensures Press(s, index, action, res) == s
  {
  }

  /** The state after one event. The "New Note" buttons, in the header and
      in the empty-state panel, lie beneath the overlay of an open modal. */
  function Step(s: State, e: Event): State {
    match e
    case Loaded(res) => FetchNotes(s, res)
    case Typed(term) => SetSearchTerm(s, term)
    case NewNote => if Covered(s) then s else OpenCreate(s)
    case CardPressed(index, action, res) => Press(s, index, action, res)
    case SaveClicked(draft, res, reload) => SaveClick(s, draft, res, reload)
    case EditorClosed => CloseEditor(s)
    case CopyClicked(origin) => CopyClick(s, origin)
    case ShareClosed => CloseShare(s)
  }

  /** The editor's save button: `handleSave`'s gate, then `saveNote`. The
      button exists only while the editor is open. The notes stay or become
      the reload's data, and the share modal is untouched. */
  function SaveClick(s: State, draft: Draft, res: Response<()>, reload: Response<seq<Note>>): (s': State)
    ensures s'.notes == s.notes || (res.Ok? && reload.Ok? && s'.notes == reload.data)
    ensures !s.loading ==> !s'.loading
    ensures s'.shareModal == s.shareModal
  {
    if SaveGoesThrough(s, draft) then SaveNote(s, res, reload) else s
  }

  /** The share modal's copy button, which exists only while the modal is
      open. Only the notification changes. */
  function CopyClick(s: State, origin: string): (s': State)
    ensures s'.(notification := s.notification) == s
  {
    if s.shareModal.Some? then CopyShareLink(s, origin, s.shareModal.value.id).state else s
  }

  /** Every note of `after`, counted with its copies, is in `before` or in
      `payload`. */
  predicate NotesFrom(after: seq<Note>, before: seq<Note>, payload: seq<Note>) {
    multiset(after) <= multiset(before) + multiset(payload)
  }

  /** All the notes the note store sends during `events` run from `s`,
      with their copies. */
  function Received(s: State, events: seq<Event>): (m: multiset<Note>)
    ensures forall x :: x in m ==>
      exists k :: 0 <= k < |events| && x in Payload(Run(s, events[..k]), events[k])
    decreases |events|
  {
    if |events| == 0 then multiset{}
    else
      var next := Step(s, events[0]);
      var rest := Received(next, events[1..]);
      assert forall x :: x in rest ==>
        exists k :: 0 <= k < |events| && x in Payload(Run(s, events[..k]), events[k]) by {
        forall x | x in rest
          ensures exists k :: 0 <= k < |events| && x in Payload(Run(s, events[..k]), events[k])
        {
          var k :| 0 <= k < |events[1..]| && x in Payload(Run(next, events[1..][..k]), events[1..][k]);
          RunShift(s, events, k);
          assert events[1..][k] == events[k + 1];
        }
      }
      assert Run(s, events[..0]) == s;
      multiset(Payload(s, events[0])) + rest
  }

  /** Running the first `k + 1` events is taking the first step, then
      running the next `k`. */
  lemma RunShift(s: State, events: seq<Event>, k: nat)
    requires k < |events|
    ensures Run(s, events[..k + 1]) == Run(Step(s, events[0]), events[1..][..k])
  {
    assert events[..k + 1][0] == events[0];
    assert events[..k + 1][1..] == events[1..][..k];
  }

  /** Notes after an event were held before it or sent by the note store;
      once loading is over it stays over, and a completed load ends it. */
  lemma StepFacts(s: State, e: Event)
    ensures NotesFrom(Step(s, e).notes, s.notes, Payload(s, e))
    ensures !s.loading ==> !Step(s, e).loading
    ensures e.Loaded? ==> !Step(s, e).loading
  {
    var t := Step(s, e);
    match e
    case Loaded(res) =>
      assert t == FetchNotes(s, res);
      assert t.notes == s.notes || t.notes == Payload(s, e);
    case CardPressed(index, action, res) =>
      assert t == Press(s, index, action, res);
      PressFacts(s, index, action, res);
    case SaveClicked(draft, res, reload) =>
      assert t == SaveClick(s, draft, res, reload);
      assert t.notes == s.notes || t.notes == Payload(s, e);
    case CopyClicked(origin) =>
      assert t == CopyClick(s, origin);
    case Typed(term) =>
      assert t == SetSearchTerm(s, term);
    case NewNote =>
      assert t == s || t == OpenCreate(s);
    case EditorClosed =>
      assert t == CloseEditor(s);
    case ShareClosed =>
      assert t == CloseShare(s);
  }

  /** The state after a sequence of events. */
  function Run(s: State, events: seq<Event>): State
    decreases |events|
  {
    if |events| == 0 then s else Run(Step(s, events[0]), events[1..])
  }

  /** The share modal is only ever open on a public note. */
  predicate SharesPublicOnly(s: State) {
    s.shareModal.Some? ==> s.shareModal.value.isPublic
  }

  lemma StepSharesPublicOnly(s: State, e: Event)
    requires SharesPublicOnly(s)
    ensures SharesPublicOnly(Step(s, e))
  {
    var t := Step(s, e);
    match e
    case CardPressed(index, action, res) =>
      assert t == Press(s, index, action, res);
      PressFacts(s, index, action, res);
    case ShareClosed =>
      assert t == CloseShare(s);
    case _ =>
      assert t.shareModal == s.shareModal;
  }

  /** Because only a public note's card has a share button, no sequence of
      events opens the share modal on a private note. */
  lemma {:induction false} RunSharesPublicOnly(s: State, events: seq<Event>)
    requires SharesPublicOnly(s)
    ensures SharesPublicOnly(Run(s, events))
    decreases |events|
  {
    if |events| > 0 {
      StepSharesPublicOnly(s, events[0]);
      RunSharesPublicOnly(Step(s, events[0]), events[1..]);
    }
  }

  /** Ids stay unique as long as every list the note store sends has unique
      ids: deletion only removes notes and fetching replaces them wholesale. */
  lemma StepKeepsUniqueIds(s: State, e: Event)
    requires UniqueIds(s.notes) && UniqueIds(Payload(s, e))
    ensures UniqueIds(Step(s, e).notes)
  {
    var t := Step(s, e);
    match e
    case Loaded(res) =>
      assert t == FetchNotes(s, res);
    case CardPressed(index, action, res) =>
      assert t == Press(s, index, action, res);
      PressKeepsUniqueIds(s, index, action, res);
    case SaveClicked(draft, res, reload) =>
      assert t == SaveClick(s, draft, res, reload);
      assert t.notes == s.notes || t.notes == Payload(s, e);
    case _ =>
      StepFacts(s, e);
      assert t.notes == s.notes;
  }

  lemma PressKeepsUniqueIds(s: State, index: nat, action: Action, res: Response<()>)
    requires UniqueIds(s.notes)
    ensures UniqueIds(Press(s, index, action, res).notes)
  {
    var shown := Visible(s.notes, s.searchTerm);
    var t := Press(s, index, action, res);
    if Covered(s) || s.loading || index >= |shown| || action !in CardOf(shown[index]).actions {
      assert t == s;
    } else if action == Delete {
      var id := shown[index].id;
      assert t == DeleteNote(s, id, res);
      if res.Ok? {
        assert t.notes == RemoveId(s.notes, id);
        RemoveKeepsUniqueIds(s.notes, id);
      } else {
        assert t.notes == s.notes;
      }
    } else {
      assert t.notes == s.notes;
    }
  }

  lemma {:induction false} RunKeepsUniqueIds(s: State, events: seq<Event>)
    requires UniqueIds(s.notes)
    requires forall k :: 0 <= k < |events| ==> UniqueIds(Payload(Run(s, events[..k]), events[k]))
    ensures UniqueIds(Run(s, events).notes)
    decreases |events|
  {
    if |events| > 0 {
      var next := Step(s, events[0]);
      assert Run(s, events[..0]) == s;
      StepKeepsUniqueIds(s, events[0]);
      forall k | 0 <= k < |events[1..]|
        ensures UniqueIds(Payload(Run(next, events[1..][..k]), events[1..][k]))
      {
        RunShift(s, events, k);
        assert events[1..][k] == events[k + 1];
      }
      RunKeepsUniqueIds(next, events[1..]);
    }
  }

  /** The client never makes a note up: every note it holds after a
      sequence of events, counted with its copies, was held at the start or
      sent by the note store during it. */
  lemma {:induction false} RunNotesComeFromStore(s: State, events: seq<Event>)
    ensures multiset(Run(s, events).notes) <= multiset(s.notes) + Received(s, events)
    decreases |events|
  {
    if |events| > 0 {
      var next := Step(s, events[0]);
      StepFacts(s, events[0]);
      RunNotesComeFromStore(next, events[1..]);
      assert Run(s, events) == Run(next, events[1..]);
    }
  }

  /** From the initial state, every note on hand came from the note store,
      and never in more copies than it was sent. */
  lemma NotesOnlyFromStore(events: seq<Event>)
    ensures multiset(Run(Init(), events).notes) <= Received(Init(), events)
    ensures forall i :: 0 <= i < |Run(Init(), events).notes| ==>
      exists k :: 0 <= k < |events| && Run(Init(), events).notes[i] in Payload(Run(Init(), events[..k]), events[k])
  {
    RunNotesComeFromStore(Init(), events);
    var r := Run(Init(), events);
    assert multiset(Init().notes) == multiset{};
    forall i | 0 <= i < |r.notes|
      ensures exists k :: 0 <= k < |events| && r.notes[i] in Payload(Run(Init(), events[..k]), events[k])
    {
      assert r.notes[i] in multiset(r.notes);
    }
  }

  /** Once any load has completed, the spinner never comes back. */
  lemma {:induction false} RunLoadingEnds(s: State, events: seq<Event>, k: nat)
    requires k < |events| && events[k].Loaded?
    ensures !Run(s, events).loading
    decreases |events|
  {
    StepFacts(s, events[0]);
    if k == 0 {
      RunKeepsLoaded(Step(s, events[0]), events[1..]);
    } else {
      RunLoadingEnds(Step(s, events[0]), events[1..], k - 1);
    }
  }

  lemma {:induction false} RunKeepsLoaded(s: State, events: seq<Event>)
    requires !s.loading
    ensures !Run(s, events).loading
    decreases |events|
  {
    if |events| > 0 {
      StepFacts(s, events[0]);
      RunKeepsLoaded(Step(s, events[0]), events[1..]);
    }
  }

  /** While the editor is open, only closing it or a save that goes through
      changes what it edits, so the draft it shows stays the one it was
      mounted with. */
  lemma EditorKeepsItsTarget(s: State, e: Event, origin: string)
    requires EditorShown(s) && !e.EditorClosed?
    requires e.SaveClicked? ==> !SaveGoesThrough(s, e.draft)
    ensures EditorShown(Step(s, e)) && Step(s, e).editingNote == s.editingNote
    ensures Screen.Render(Step(s, e), origin).editor == Screen.Render(s, origin).editor
  {
    var t := Step(s, e);
    match e
    case Loaded(res) =>
      assert t == FetchNotes(s, res);
    case CardPressed(index, action, res) =>
      StepPress(s, index, action, res);
      PressBeneathModal(s, index, action, res);
    case SaveClicked(draft, res, reload) =>
      StepSaveClick(s, draft, res, reload);
      assert t == s;
    case CopyClicked(origin') =>
      assert t == CopyClick(s, origin');
    case Typed(term) =>
      assert t == SetSearchTerm(s, term);
    case NewNote =>
      assert t == s;
    case ShareClosed =>
      assert t == CloseShare(s);
    RenderedDraft(s, t, origin);
  }

  /** The editor's draft depends only on what the editor edits. */
  lemma RenderedDraft(s: State, t: State, origin: string)
    requires EditorShown(s) && EditorShown(t) && s.editingNote == t.editingNote
    ensures Screen.Render(t, origin).editor == Screen.Render(s, origin).editor
  {
  }

  /** A save click with an all-whitespace title does nothing at all. */
  lemma BlankTitleSaveIsInert(s: State, draft: Draft, res: Response<()>, reload: Response<seq<Note>>)
    requires forall i :: 0 <= i < |draft.title| ==> IsWhitespace(draft.title[i])
    ensures Step(s, SaveClicked(draft, res, reload)) == s
  {
  }

  /** Opening the editor on a note and saving it untouched sends a PUT to
      that note's endpoint carrying the note's own title, content and
      visibility. */
  lemma UntouchedEditResubmitsNote(s: State, note: Note)
    requires exists i :: 0 <= i < |note.title| && !IsWhitespace(note.title[i])
    ensures var afterOpen := OpenEdit(s, note);
      && HandleSave(InitialDraft(afterOpen.editingNote)) == Some(Draft(note.title, note.content, note.isPublic))
      && SaveRequest(afterOpen, Draft(note.title, note.content, note.isPublic))
         == Request(PUT, NoteUrl(note.id), Some(Draft(note.title, note.content, note.isPublic)))
  {
  }

  /** Creating a private note: after the store accepts it and the reload
      returns it, the editor is closed, "Note created!" shows, and the note's
      card has edit and delete buttons but no share button. */
  lemma CreatePrivateNoteScenario(s: State, n: Note, origin: string)
    requires !Covered(s) && s.searchTerm == ""
    requires n == Note("42", "Groceries", "milk, eggs", false, "2024-01-01")
    ensures var afterOpen := Step(s, NewNote);
      var draft := Draft("Groceries", "milk, eggs", false);
      var saved := Step(afterOpen, SaveClicked(draft, Ok(()), Ok([n])));
      && SaveRequest(afterOpen, draft) == Request(POST, NotesUrl, Some(draft))
      && !EditorShown(saved)
      && saved.notification == Some(Notification(NoteCreated, Success))
      && Screen.Render(saved, origin).cards == [CardOf(n)]
      && CardOf(n).actions == [Edit, Delete]
  {
    var afterOpen := Step(s, NewNote);
    assert afterOpen == OpenCreate(s);
    var draft := Draft("Groceries", "milk, eggs", false);
    assert !IsWhitespace(draft.title[0]);
    SaveOnlyNote(afterOpen, draft, n, origin);
  }

  /** Publishing a note: editing the only note to make it public sends a
      PUT to its endpoint; once the reload returns it, "Note updated!" shows
      and its card carries the "Public" badge and a share button. */
  lemma PublishNoteScenario(s: State, n: Note, origin: string)
    requires !s.loading && s.searchTerm == "" && s.notes == [n] && !Covered(s)
    requires exists i :: 0 <= i < |n.title| && !IsWhitespace(n.title[i])
    ensures var published := n.(isPublic := true);
      var editing := Step(s, CardPressed(0, Edit, NotOk));
      var draft := Draft(n.title, n.content, true);
      var saved := Step(editing, SaveClicked(draft, Ok(()), Ok([published])));
      && SaveRequest(editing, draft) == Request(PUT, NoteUrl(n.id), Some(draft))
      && saved.notification == Some(Notification(NoteUpdated, Success))
      && Screen.Render(saved, origin).cards == [CardOf(published)]
      && CardOf(published).publicBadge && Share in CardOf(published).actions
  {
    var published := n.(isPublic := true);
    var editing := Step(s, CardPressed(0, Edit, NotOk));
    PressOnlyCard(s, n, Edit, NotOk);
    assert editing == OpenEdit(s, n);
    var draft := Draft(n.title, n.content, true);
    SaveOnlyNote(editing, draft, published, origin);
  }

  /** The share button of a public note's card opens a share modal showing
      `{origin}/share/{id}` for that note. */
  lemma ShareNoteScenario(s: State, n: Note, origin: string)
    requires !s.loading && s.searchTerm == "" && s.notes == [n] && !Covered(s) && n.isPublic
    ensures var sharing := Step(s, CardPressed(0, Share, NotOk));
      && sharing.shareModal == Some(n)
      && Screen.Render(sharing, origin).shareLink == Some(ShareUrl(origin, n.id))
  {
    var sharing := Step(s, CardPressed(0, Share, NotOk));
    PressOnlyCard(s, n, Share, NotOk);
    var link := Screen.Render(sharing, origin).shareLink;
    assert link == Some(ShareModalUrl(origin, n));
    ShareUrlRoundTrip(origin, n.id, link.value);
  }

  /** With a single stored note and no search, pressing one of its card's
      buttons acts on that note. */
  lemma PressOnlyCard(s: State, n: Note, action: Action, res: Response<()>)
    requires !s.loading && s.searchTerm == "" && s.notes == [n] && !Covered(s)
    requires action in CardOf(n).actions
    ensures action == Edit ==> Step(s, CardPressed(0, action, res)) == OpenEdit(s, n)
    ensures action == Share ==> Step(s, CardPressed(0, action, res)) == OpenShare(s, n)
  {
    var shown := Visible(s.notes, s.searchTerm);
    EmptyTermShowsAll(s.notes);
    assert shown == [n] && shown[0] == n;
    StepPress(s, 0, action, res);
  }

  /* `StepPress`, `StepSaveClick` and `SaveClickGoes` only unfold `Step` or
     `SaveClick`. They exist so that a proof about one kind of event does not
     carry every other handler's definition into the solver's context. */

  lemma StepPress(s: State, index: nat, action: Action, res: Response<()>)
    ensures Step(s, CardPressed(index, action, res)) == Press(s, index, action, res)
  {
  }

  /** Saving an open editor whose reload returns a single note leaves that
      note's card alone on screen. */
  lemma SaveOnlyNote(s: State, draft: Draft, n: Note, origin: string)
    requires EditorShown(s) && s.searchTerm == ""
    requires exists i :: 0 <= i < |draft.title| && !IsWhitespace(draft.title[i])
    ensures var saved := Step(s, SaveClicked(draft, Ok(()), Ok([n])));
      && saved == SaveNote(s, Ok(()), Ok([n]))
      && saved.notes == [n] && !saved.loading && saved.searchTerm == ""
      && Screen.Render(saved, origin).cards == [CardOf(n)]
  {
    assert SaveGoesThrough(s, draft);
    StepSaveClick(s, draft, Ok(()), Ok([n]));
    SaveClickGoes(s, draft, Ok(()), Ok([n]));
    var saved := SaveNote(s, Ok(()), Ok([n]));
    Screen.EmptySearchShowsEveryCard(saved, origin);
    var cards := Screen.Render(saved, origin).cards;
    assert |cards| == 1 && cards[0] == CardOf(n);
  }

  lemma StepSaveClick(s: State, draft: Draft, res: Response<()>, reload: Response<seq<Note>>)
    ensures Step(s, SaveClicked(draft, res, reload)) == SaveClick(s, draft, res, reload)
  {
  }

  lemma SaveClickGoes(s: State, draft: Draft, res: Response<()>, reload: Response<seq<Note>>)
    requires SaveGoesThrough(s, draft)
    ensures SaveClick(s, draft, res, reload) == SaveNote(s, res, reload)
  {
  }
}

=== FILE: text.dfy ===
/** String helpers the controller relies on: ASCII approximations of
    `toLowerCase`, `trim` and `includes`. */
module Text {

  /** The whitespace `trim` strips, restricted to ASCII: space, tab, line
      feed, vertical tab, form feed and carriage return. */
  predicate IsWhitespace(c: char) {
    c == ' ' || c == '\t' || c == '\n' || c == '\U{000B}' || c == '\U{000C}' || c == '\r'
  }

  predicate IsUpper(c: char) {
    'A' <= c <= 'Z'
  }

  /** ASCII lower-casing of one character: a capital becomes its small
      letter, anything else is kept. */
  function LowerChar(c: char): (r: char)
    ensures !IsUpper(r)
    ensures IsUpper(c) ==> 'a' <= r <= 'z' && r as int - 'a' as int == c as int - 'A' as int
    ensures !IsUpper(c) ==> r == c
  {
    if IsUpper(c) then (c as int + 32) as char else c
  }

  /** `s.toLowerCase()`, character by character. */
  function Lower(s: string): (r: string)
    ensures |r| == |s|
    ensures forall i :: 0 <= i < |s| && IsUpper(s[i]) ==> 'a' <= r[i] <= 'z' && r[i] as int - 'a' as int == s[i] as int - 'A' as int
    ensures forall i :: 0 <= i < |s| && !IsUpper(s[i]) ==> r[i] == s[i]
  {
    seq(|s|, i requires 0 <= i < |s| => LowerChar(s[i]))
  }

  predicate StartsWith(s: string, prefix: string) {
    |prefix| <= |s| && s[..|prefix|] == prefix
  }

  /** `t` occurs in `s` starting at index `i`. */
  predicate OccursAt(s: string, t: string, i: int) {
    0 <= i && i + |t| <= |s| && s[i..i + |t|] == t
  }

  /** `s.includes(t)`, as a left-to-right scan. */
  predicate Contains(s: string, t: string)
    decreases |s|
  {
    StartsWith(s, t) || (|s| > 0 && Contains(s[1..], t))
  }

  /** The scan finds `t` exactly when `t` occurs somewhere in `s`. */
  lemma {:induction false} ContainsIffOccurs(s: string, t: string)
    ensures Contains(s, t) <==> exists i :: OccursAt(s, t, i)
    decreases |s|
  {
    if Contains(s, t) {
      if StartsWith(s, t) {
        assert OccursAt(s, t, 0);
      } else {
        ContainsIffOccurs(s[1..], t);
        var i :| OccursAt(s[1..], t, i);
        assert s[1..][i..i + |t|] == s[i + 1..i + 1 + |t|];
        assert OccursAt(s, t, i + 1);
      }
    }
    if exists i :: OccursAt(s, t, i) {
      var i :| OccursAt(s, t, i);
      if i > 0 {
        assert s[1..][i - 1..i - 1 + |t|] == s[i..i + |t|];
        assert OccursAt(s[1..], t, i - 1);
        ContainsIffOccurs(s[1..], t);
      }
    }
  }

  /** Every string includes the empty string. */
  lemma ContainsEmpty(s: string)
    ensures Contains(s, "")
  {
    assert StartsWith(s, "");
  }

  /** `s.trimStart()`: drops leading whitespace. */
  function TrimStart(s: string): (r: string)
    ensures |r| <= |s| && r == s[|s| - |r|..]
    ensures forall i :: 0 <= i < |s| - |r| ==> IsWhitespace(s[i])
    ensures |r| > 0 ==> !IsWhitespace(r[0])
    decreases |s|
  {
    if |s| > 0 && IsWhitespace(s[0]) then TrimStart(s[1..]) else s
  }

  /** `s.trimEnd()`: drops trailing whitespace. */
  function TrimEnd(s: string): (r: string)
    ensures |r| <= |s| && r == s[..|r|]
    ensures forall i :: |r| <= i < |s| ==> IsWhitespace(s[i])
    ensures |r| > 0 ==> !IsWhitespace(r[|r| - 1])
    decreases |s|
  {
    if |s| > 0 && IsWhitespace(s[|s| - 1]) then TrimEnd(s[..|s| - 1]) else s
  }

  /** `r` is the slice of `s` starting at `lo`, and everything outside that
      slice is whitespace. */
  predicate TrimmedSliceAt(s: string, r: string, lo: int) {
    && 0 <= lo && lo + |r| <= |s| && r == s[lo..lo + |r|]
    && (forall i :: 0 <= i < lo ==> IsWhitespace(s[i]))
    && (forall i :: lo + |r| <= i < |s| ==> IsWhitespace(s[i]))
  }

  /** `s.trim()`: the result has no whitespace at either end, and it is
      empty exactly when `s` is all whitespace. */
  function Trim(s: string): (r: string)
    ensures |r| > 0 ==> !IsWhitespace(r[0]) && !IsWhitespace(r[|r| - 1])
    ensures |r| == 0 <==> forall i :: 0 <= i < |s| ==> IsWhitespace(s[i])
  {
    var a := TrimStart(s);
    var r := TrimEnd(a);
    TrimShape(s, a, r, |s| - |a|);
    r
  }

  /** The result of `trim` is a slice of `s`, and everything cut away is
      whitespace. */
  lemma TrimCutsOnlyWhitespace(s: string)
    ensures exists lo :: TrimmedSliceAt(s, Trim(s), lo)
  {
    var a := TrimStart(s);
    var lo := |s| - |a|;
    assert Trim(s) == TrimEnd(a);
    TrimShape(s, a, TrimEnd(a), lo);
    assert TrimmedSliceAt(s, Trim(s), lo);
  }

  lemma TrimShape(s: string, a: string, r: string, lo: int)
    requires a == TrimStart(s) && r == TrimEnd(a) && lo == |s| - |a|
    ensures TrimmedSliceAt(s, r, lo)
    ensures |r| > 0 ==> !IsWhitespace(r[0])
  {
    assert a == s[lo..];
    assert r == a[..|r|];
    assert r == s[lo..lo + |r|];
    forall i | lo + |r| <= i < |s| ensures IsWhitespace(s[i]) {
      assert s[i] == a[i - lo];
    }
    if |r| > 0 {
      assert r[0] == a[0];
    }
  }
}

=== FILE: urls.dfy ===
/** The URLs the client builds: the note store's endpoints and the share
    link. Every URL is a fixed prefix followed by the note id, so the id can
    be read back. */
module Urls {
  import opened Notes
  import opened Text

  datatype Verb = GET | POST | PUT | DELETE

  /** One call to the note store: HTTP verb, URL and JSON body, if any. */
  datatype Request = Request(verb: Verb, url: string, body: Option<Draft>)

  /** `API_BASE_URL`. */
  const ApiBase: string := "http://localhost:8081/api"

  /** The collection endpoint, target of GET and POST. */
  const NotesUrl: string := ApiBase + "/notes"

  /** The endpoint of one note, target of PUT and DELETE. */
  function NoteUrl(id: Id): (url: string)
    ensures StartsWith(url, NotesUrl + "/")
    ensures url != NotesUrl
  {
    NotesUrl + "/" + id
  }

  /** The share link `{origin}/share/{id}`. */
  function ShareUrl(origin: string, id: Id): (url: string)
    ensures StartsWith(url, origin + "/share/")
  {
    origin + "/share/" + id
  }

  /** The id a URL with the given prefix carries, if it has that prefix. */
  function IdAfter(prefix: string, url: string): (id: Option<Id>)
    ensures id.Some? <==> StartsWith(url, prefix)
    ensures id.Some? ==> prefix + id.value == url
  {
    if StartsWith(url, prefix) then
      assert prefix + url[|prefix|..] == url[..|prefix|] + url[|prefix|..];
      Some(url[|prefix|..])
    else None
  }

  /** Reading the id back from a note endpoint inverts `NoteUrl`. */
  lemma NoteUrlRoundTrip(id: Id, url: string)
    ensures IdAfter(NotesUrl + "/", NoteUrl(id)) == Some(id)
    ensures IdAfter(NotesUrl + "/", url) == Some(id) ==> url == NoteUrl(id)
  {
    var prefix := NotesUrl + "/";
    assert NoteUrl(id) == prefix + id;
    assert (prefix + id)[|prefix|..] == id;
  }

  /** Reading the id back from a share link inverts `ShareUrl`. */
  lemma ShareUrlRoundTrip(origin: string, id: Id, url: string)
    ensures IdAfter(origin + "/share/", ShareUrl(origin, id)) == Some(id)
    ensures IdAfter(origin + "/share/", url) == Some(id) ==> url == ShareUrl(origin, id)
  {
    var prefix := origin + "/share/";
    assert ShareUrl(origin, id) == prefix + id;
    assert (prefix + id)[|prefix|..] == id;
  }

  /** Distinct notes get distinct share links on the same origin. */
  lemma ShareUrlInjective(origin: string, a: Id, b: Id)
    requires ShareUrl(origin, a) == ShareUrl(origin, b)
    ensures a == b
  {
    ShareUrlRoundTrip(origin, a, ShareUrl(origin, b));
  }
}
